=== FILE: README.md ===
# sn_gui: a Dafny model of the Safe Network desktop front-end

sn_gui is an egui desktop application built on the external `safe` command-line
tool. It has three views. The Network view lists, adds, switches and removes
network profiles. The Node view starts and stops a `safe node join` child process
and shows that node's log. The Files view uploads and downloads files. A footer
shows the latest status message that the views send over a channel.

This project models the logic of those views. Each view is a class, and each
user event is a method on it:

- `Common` (`common.dfy`) holds the shared abstractions:
  - subprocess outcomes: a spawn error, or an exit flag plus two byte streams
    that may or may not decode as UTF-8;
  - `Invocation`, one call of `safe` with its environment overrides;
  - `ParseArgs`, the positional grammar of the argument vectors the GUI builds;
  - `Contains`, substring search, with its index characterisation;
  - the status channel class, and the `send_status` behaviour the views share
    (a message is dropped when the view has no sender).
- `NodeRunning` (`node.dfy`) holds the Idle/Running node state machine and the
  append-only log buffer.
- `Networks` (`network.dfy`) holds the modal windows and their toggles, form
  validation, the listing and the current-network derivation, the argument
  vectors, and how each subcommand's outcome is classified.
- `Files` (`files.dfy`) holds the Put/Get mode switch, form validation, the
  argument vectors and outcome classification.
- `App` (`app.dfy`) holds the tab router, the footer (the channel is created
  once, and each frame receives at most one message, which replaces the one
  on display), and the hand-over of the sender and the current network name.

The external tool is a parameter. `Tool` stands for `Command::output`, and
`Launcher` stands for `Command::spawn`. The JSON decoder is a parameter too,
called `Parser`. Every invocation names the program `safe`. Every view records
each invocation it issues in `issued`, so the contracts can say when a command
runs and with exactly which arguments. `safe` keeps state between calls (its
profile store). So a `Tool` gives the outcome of an invocation made as the
view's n-th call, and a refetch right after a successful add can see the new
profile.

The Network view's windows are specified on one value, `ViewState`. It holds
the open window, the three forms, the listing, the calls issued and the pending
statuses. `AddStep`, `SwitchStep` and `RemoveStep` state what each window's
button promises. `AfterAdd`, `AfterSwitch` and `AfterRemove` compute the new
state and are proved to meet those promises. Each `Submit…` method is proved to
produce exactly that new state. `WindowStep` says what the open window does with
one frame's input, and `PanelStep` what the side panel does with it. A frame
draws the windows before the panel, so `FrameHandled` puts the two together:
panel input acts on the state as drawn, and any other input is the window's
alone.

Some behaviours of the code are worth stating outright:

- Stopping never clears `running_node_handle` or `log` (src/node.rs:99-115). So
  `NodeRunner.Valid` only requires that Running implies a handle. What holds
  both ways is "the tailer is live iff Running", because stop aborts it.
- `run_node` uses `spawn`, which does not wait for the child. So only a failure
  to spawn is reported, and a child that exits with an error status is not
  (src/node.rs:175-185).
- `get_files` reports a failed exit as "Error: failed to put file"
  (src/files.rs:178-180). The model keeps this text.

## Model

| member | source | states |
|---|---|---|
| `Common.ParseArgs` | src/network.rs:262-322 | the positional grammar of the vectors passed to `safe`: a vector that parses has two to five words, and it starts with `node` exactly when it is the node-join command |
| `Common.Contains` | src/network.rs:296 | `str::contains`: a pattern that is found fits inside the text, and the empty pattern and the text itself are always found (`ContainsIff` characterises it completely) |
| `Common.ParseArgsInjective` | src/network.rs:262-322 | two argument vectors that parse to the same command are equal, so a vector proved to parse to a command is exactly that command's vector |
| `Common.ContainsIff` | src/network.rs:296 | the substring test used for "with name" holds exactly when the pattern occurs at some index |
| `Common.SendStatus` | src/network.rs:242-251 | a status reaches the footer's queue, at the end, if the view holds a sender; otherwise it is dropped |
| `Common.StatusChannel.constructor` | src/main.rs:86 | a new channel holds no messages |
| `Common.StatusChannel.Send` | src/node.rs:164-173 | a send appends the message to the end of the channel |
| `Common.StatusChannel.TryRecv` | src/main.rs:94 | a receive takes the oldest pending message, or nothing from an empty channel; no message is lost |
| `NodeRunning.RunNodeInvocation` | src/node.rs:175-185 | the launch vector is exactly `node join --network-name <name>`, and `RUST_LOG` is the only override, set on the child |
| `NodeRunning.Receive` | src/node.rs:131-133 | a frame moves at most one pending log line to the end of the shown lines; earlier lines stay, and shown plus pending lines are conserved in order |
| `NodeRunning.ReceiveNShowsPrefix` | src/node.rs:131-133 | after k frames the shown log is the old log plus the first k pending lines, in arrival order |
| `NodeRunning.NodeRunner.constructor` | src/node.rs:20-41 | the runner starts Idle, with no network, handle, log or sender |
| `NodeRunning.NodeRunner.ClickStart` | src/node.rs:53-90 | with no current network: nothing is launched, the state stays Idle and "Error: No default network set" is sent. Otherwise the node is launched with the exact vector. If the spawn succeeds, the handle and a fresh empty log are stored, "Node is running!" is sent and the state becomes Running. If it fails, the state, handle and log are unchanged and "Error: <reason>" is sent |
| `NodeRunning.NodeRunner.ClickStop` | src/node.rs:92-115 | stop always ends Idle and aborts the tailer. Handle and log are kept. "Error: Failed to kill node" is sent only when kill fails, followed by "Node has been stopped!" |
| `NodeRunning.NodeRunner.TailerSends` | src/node.rs:150-157 | a line from the tailer joins the end of the log channel, but only while the tailer has not been aborted |
| `NodeRunning.NodeRunner.PollLog` | src/node.rs:119-134 | every frame receives at most one log line if there is a log, including after stop |
| `NodeRunning.NodeRunner.Ui` | src/node.rs:44-138 | the button acts for the current state, then one log receive. Running goes to Idle, keeping the handle and launching nothing. A click while Idle launches nothing without a network, and otherwise exactly `node join --network-name <name>`. It goes to Running iff a network is set and the spawn succeeds, storing the spawned handle and a fresh log; otherwise the handle is kept. Without a click nothing but the log changes |
| `Networks.ListArgs` | src/network.rs:264 | the listing vector is exactly `networks --json` |
| `Networks.AddArgs` | src/network.rs:275 | the add vector is exactly `networks add <name> <path>` |
| `Networks.SwitchArgs` | src/network.rs:290 | the switch vector is exactly `networks switch <name>` |
| `Networks.RemoveArgs` | src/network.rs:308 | the remove vector is exactly `networks remove <name>` |
| `Networks.GetNetworksCmd` | src/network.rs:262-271 | a listing is returned iff the child ran, exited successfully, wrote UTF-8 and the decoder accepted it. A failed exit is "Error: failed to fetch networks" |
| `Networks.AddNetworkCmd` | src/network.rs:274-286 | add succeeds iff the child ran and exited successfully; a failed exit is "Error: failed to add network" |
| `Networks.SwitchNetworkCmd` | src/network.rs:289-304 | switch succeeds iff the exit succeeded, whatever it printed. On a failed exit, stderr containing "with name" gives the not-found message naming the profile; anything else gives the generic error |
| `Networks.RemoveNetworkCmd` | src/network.rs:307-322 | remove succeeds iff the exit succeeded and stdout decodes without "with name". That marker gives the not-found error even on success; the exit status is checked only after it |
| `Networks.SwitchReportsNotFound` | src/network.rs:294-300 | a failed switch whose stderr has "with name" at any position reports that the named profile was not found |
| `Networks.RemoveReportsNotFound` | src/network.rs:311-316 | a remove whose stdout has "with name" at any position reports not found, even after a successful exit |
| `Networks.LastCurrentName` | src/network.rs:220-225 | a derived current network is always the name of an entry marked current |
| `Networks.LastCurrentNameSpec` | src/network.rs:220-225 | the derived current network is None iff no entry is current; otherwise it is the name of the last entry marked current |
| `Networks.Network.constructor` | src/network.rs:9-39 | no window open, empty forms with no errors, no listing, no current network, no sender |
| `Networks.Refetched` | src/network.rs:254-259 | a fetch as the view's next call issues `networks --json`. The listing is replaced on success and kept on failure, a failure is sent as a red status, and the window and forms are untouched |
| `Networks.AfterAdd` | src/network.rs:73-101 | meets `AddStep`. name_error iff the name is empty and path_error iff the path is empty. The add runs only when both are filled. Success: fields and flags cleared, window closed, listing refetched as the next call. Failure: fields and window kept, error sent. Focus flag and other forms untouched |
| `Networks.AfterSwitch` | src/network.rs:116-137 | meets `SwitchStep`. name_error iff the name is empty, and the switch runs only otherwise. Success: the name is cleared, the window closed and the listing refetched. Failure: the name and window stay and the error is sent |
| `Networks.AfterRemove` | src/network.rs:152-173 | meets `RemoveStep`: the same validation and reset as Switch, running `networks remove` |
| `Networks.WindowStepKeeps` | src/network.rs:62-178 | handling a window's input never loses a fetched listing, only appends to the issued calls, and can close a window but never open one |
| `Networks.PanelStepKeeps` | src/network.rs:180-209 | handling the panel's input never loses a fetched listing and only appends to the issued calls |
| `Networks.FrameSteps` | src/network.rs:62-209 | a frame's window step followed by its panel step: input that is not the panel's is the window's alone, and panel input acts on the drawn state. A listing is never lost and calls are only appended. With no window open, window input changes nothing. A panel button closes an open window |
| `Networks.Network.GetNetworks` | src/network.rs:254-259 | the view's new state is exactly `Refetched` of its old state: `networks --json` issued, listing replaced on success and kept on failure, failure sent in red |
| `Networks.Network.SubmitAdd` | src/network.rs:73-101 | the Add button sets path_error iff the path is empty and name_error iff the name is empty. `networks add <name> <path>` runs as the view's next call only when both are filled. On success the success status is sent, the fields are cleared, the window closes and the listing is refetched. On failure the fields and window stay and the error is sent. The new state is exactly `AfterAdd` of the old one, which meets `AddStep` |
| `Networks.Network.SubmitSwitch` | src/network.rs:116-137 | the view's new state is exactly `AfterSwitch` of its old state, so the Switch button keeps every promise of `SwitchStep` |
| `Networks.Network.SubmitRemove` | src/network.rs:152-173 | the view's new state is exactly `AfterRemove` of its old state, so the Remove button keeps every promise of `RemoveStep` |
| `Networks.Network.Toggle` | src/network.rs:185-208 | any panel button closes an open window, otherwise opens its own; opening Add resets initial_focus_done to false |
| `Networks.Network.DeriveCurrentName` | src/network.rs:220-232 | the listing loop leaves the current network equal to the last entry marked current (None if there is none) |
| `Networks.Network.AddWindowUi` | src/network.rs:64-104 | drawing the Add window sets initial_focus_done. Close closes it, an edit replaces the name or path, "Add" does exactly `AfterAdd`, and any other input changes nothing else |
| `Networks.Network.SwitchWindowUi` | src/network.rs:105-140 | Close closes the Switch window, an edit replaces the name, "Switch" does exactly `AfterSwitch`, and any other input changes nothing |
| `Networks.Network.RemoveWindowUi` | src/network.rs:141-176 | Close closes the Remove window, an edit replaces the name, "Remove" does exactly `AfterRemove`, and any other input changes nothing |
| `Networks.Network.WindowUi` | src/network.rs:62-178 | the open window handles the input as `WindowStep` says. With no window open nothing changes |
| `Networks.Network.PanelUi` | src/network.rs:180-209 | the panel handles the input as `PanelStep` says. Refresh is exactly `Refetched`: the listing is replaced on success and kept on failure, with the error sent in red. Add, Switch and Remove close an open window, or else open their own, and opening Add resets initial_focus_done. Any other input changes nothing |
| `Networks.Network.Ui` | src/network.rs:56-239 | a frame fetches first if there is no listing. Once fetched, a listing is never lost. With a listing, the current network is derived from it; without one, the current network keeps its value. With a listing at the start, the frame is `FrameHandled`: panel input acts as `PanelStep` says on the drawn state, and any other input exactly as `WindowStep` says. Window input with no window open changes nothing, and a panel button closes an open window |
| `Files.PutArgs` | src/files.rs:164 | the upload vector is exactly `networks files put <path>` |
| `Files.GetArgs` | src/files.rs:175 | the download vector is exactly `networks files get <url> <dst>` |
| `Files.PutFilesCmd` | src/files.rs:163-172 | the output is returned iff the child ran, exited successfully and wrote UTF-8. A failed exit is "Error: failed to put file" |
| `Files.GetFilesCmd` | src/files.rs:174-183 | get succeeds iff the child ran and exited successfully. A failed exit is also "Error: failed to put file" |
| `Files.FilesView.constructor` | src/files.rs:35-49 | Put mode, empty path and url, destination ".", empty output, no sender |
| `Files.FilesView.Select` | src/files.rs:54-60 | the Put and Get buttons set the mode and nothing else |
| `Files.FilesView.SubmitPutForm` | src/files.rs:81-97 | path_error iff the path is empty, and the upload runs only otherwise. Success: the path is cleared and the output replaced by stdout. Failure: both are kept and the error is sent |
| `Files.FilesView.SubmitGetForm` | src/files.rs:123-138 | url_error iff the url is empty, and the download runs only otherwise. Success clears the url. The destination is always kept |
| `Files.FilesView.Ui` | src/files.rs:52-149 | the mode buttons change only the mode. An edit of the shown form replaces its field and changes nothing else: the path in Put mode, the url or destination in Get mode. Input for the other mode's form changes nothing. The output area can be edited in either mode. A submission sets its form's error flag exactly when its field is empty |
| `App.Consume` | src/main.rs:93-97 | one frame receives at most one status, which replaces the one on display; with nothing pending the display is unchanged |
| `App.ConsumeNShowsLatest` | src/main.rs:93-97 | after k frames the display is the last of the first k pending statuses, so only the latest is kept |
| `App.SafeGui.constructor` | src/main.rs:34-48 | the Network tab, no status, no channel. Each view is fresh: Network has no window, empty forms, no listing and no current name; Node is Idle with no network, handle or log; Files is in Put mode with empty forms, destination "." and empty output; none has issued a call |
| `App.SafeGui.Footer` | src/main.rs:84-109 | returns a fresh sender only on the call that creates the channel, and none afterwards; then receives at most one status into the display |
| `App.SafeGui.Update` | src/main.rs:51-79 | the tab is the clicked one, or unchanged. The sender goes to the Network and Node views only, and Files never gets one. Node gets Network's current name as it stood before the frame. Only the shown view changes |

## Left out

- Spawning processes, capturing their output and killing them (`Command::output`, `Command::spawn`, `Child::kill`). These are parameters: a `Tool` and a `Launcher` for each invocation, and a `killOk` flag for the kill.
- UTF-8 decoding and serde_json decoding of the listing are parameters: a `Stream` that decoded or did not, and a `Parser` function.
- The tokio log tailer in `read_log`: its start-up delay, its polling sleeps, the hard-coded log path and the `unwrap` that panics when the file is missing. What remains is `TailerSends`, which appends a line to the log channel while the tailer has not been aborted. The log channel holds at most 10000 lines, and a send into a full channel waits; the model never fills up.
- `send_status` sends from a spawned tokio task. Two sends from one frame could therefore arrive in either order, and a send into a full channel (capacity 10000) waits. The model appends in program order and never fills up.
- egui rendering: layout, labels, button geometry, focus requests, repaint requests, the listing grid and the log scroll area. Typing into a text field and picking a file or folder with rfd are events that replace the field's text.
- One input event per frame. egui could report several clicks in a single frame; the model does not.
- `main` and `eframe::run_native`.
- src/options.tsx, src/home.tsx, src/App.tsx and src-tauri/src/state.rs contain no logic of this application; they are not part of this model.
- Networks.Network.Ui: its contract ties a frame to `FrameHandled` only when the listing was already there. In a frame that starts with the first fetch, the window and panel parts are stated by `WindowUi` and `PanelUi` and not restated.
- Files.FilesView.Ui: its contract states mode selection, edits, validation flags and ignored input. The rest of what a submission does (the call, the output and the status) is stated by `SubmitPutForm` and `SubmitGetForm`.
- NodeRunning.NodeRunner.Ui: its contract states the state, launch, handle and log of a click, and leaves the statuses it sends to `ClickStart` and `ClickStop`.
- App.SafeGui.Update: its contract states routing, the footer and propagation. The shown view's changes are stated by that view's own `Ui` contract, apart from the derived current network.

=== FILE: app.dfy ===
/**
 * The application shell (`SafeGui`): a top bar choosing one of three views,
 * and a footer that owns the status channel, shows the latest status, and
 * hands the sending side to the Network and Node views.
 */
module App {
  import opened Common
  import Networks
  import NodeRunning
  import Files

  /** The view the top bar selected (`SafeGuiState`). */
  datatype Tab = FilesTab | NetworkTab | NodeTab

  /** What the footer holds: the status on display and the messages not yet received. */
  datatype FooterState = FooterState(status: Option<Status>, pending: seq<Status>)

  /**
   * The footer's receive in one frame: the oldest pending message, if any,
   * replaces the displayed status; otherwise the display stays.
   */
  function Consume(f: FooterState): (r: FooterState)
    ensures f.pending == [] ==> r == f
    ensures f.pending != [] ==> r.status == Some(f.pending[0]) && f.pending == [f.pending[0]] + r.pending
  {
    if f.pending == [] then f else FooterState(Some(f.pending[0]), f.pending[1..])
  }

  /** The footer after `k` frames in which nothing new was sent. */
  function ConsumeN(f: FooterState, k: nat): FooterState
    decreases k
  {
    if k == 0 then f else ConsumeN(Consume(f), k - 1)
  }

  /**
   * After `k` frames the footer has received the first `k` pending messages
   * (or all of them) and displays only the last one received; with nothing
   * received it still displays what it did.
   */
  lemma {:induction false} ConsumeNShowsLatest(f: FooterState, k: nat)
    ensures var n := if k < |f.pending| then k else |f.pending|;
      && ConsumeN(f, k).pending == f.pending[n..]
      && ConsumeN(f, k).status == if n == 0 then f.status else Some(f.pending[n - 1])
    decreases k
  {
    if k != 0 && f.pending != [] {
      var r := Consume(f);
      ConsumeNShowsLatest(r, k - 1);
      assert r.pending == f.pending[1..];
      var n := if k < |f.pending| then k else |f.pending|;
      assert n - 1 == (if k - 1 < |r.pending| then k - 1 else |r.pending|);
      if n > 1 {
        assert r.pending[n - 2] == f.pending[n - 1];
      }
    } else if k != 0 {
      ConsumeNShowsLatest(Consume(f), k - 1);
    }
  }

  /** The application (`SafeGui`): three views, the tab, and the footer's state. */
  class SafeGui {
    const network: Networks.Network
    const nodeRunner: NodeRunning.NodeRunner
    const filesView: Files.FilesView
    var state: Tab
    var status: Option<Status>
    var statusReceiver: StatusChannel?

    /**
     * The Network and Node views send on the footer's channel (both before
     * it exists, when none of them has one); the Files view never gets a
     * sender.
     */
    ghost predicate Valid()
      reads this, network, nodeRunner, filesView
    {
      && network.statusSender == statusReceiver
      && nodeRunner.statusSender == statusReceiver
      && filesView.statusSender == null
      && nodeRunner.Valid()
    }

    /**
     * `SafeGui::default()`: the Network tab, no status, no channel yet, and
     * each view fresh in its own default state.
     */
    constructor ()
      ensures Valid()
      ensures state == NetworkTab && status == None && statusReceiver == null
      ensures fresh(network) && fresh(nodeRunner) && fresh(filesView)
      ensures network.openWindow == None && network.addNetwork == Networks.EMPTY_ADD_FORM
      ensures network.switchNetwork == Networks.EMPTY_NAME_FORM && network.removeNetwork == Networks.EMPTY_NAME_FORM
      ensures network.networks == None && network.currentNetworkName == None && network.issued == []
      ensures nodeRunner.currentNetworkName == None && nodeRunner.nodeState == NodeRunning.Idle
      ensures nodeRunner.runningNodeHandle == None && nodeRunner.log == None && nodeRunner.issued == []
      ensures filesView.filesState == Files.Put && filesView.putState == Files.PutState("", false)
      ensures filesView.getState == Files.DEFAULT_GET_STATE && filesView.cmdOutput == "" && filesView.issued == []
    {
      network := new Networks.Network();
      nodeRunner := new NodeRunning.NodeRunner();
      filesView := new Files.FilesView();
      state := NetworkTab;
      status := None;
      statusReceiver := null;
    }

    /**
     * `footer`: the channel is created on the first call only, which alone
     * returns its sending side; then at most one pending status is received
     * and replaces the one on display.
     */
    method Footer() returns (tx: StatusChannel?)
      modifies this`statusReceiver, this`status, statusReceiver
      ensures (tx != null) == (old(statusReceiver) == null)
      ensures tx != null ==> fresh(tx) && statusReceiver == tx && tx.queue == []
      ensures old(statusReceiver) != null ==> statusReceiver == old(statusReceiver)
      ensures statusReceiver != null
      ensures FooterState(status, statusReceiver.queue) == Consume(FooterState(old(status), old(Pending(statusReceiver))))
    {
      if statusReceiver == null {
        var ch := new StatusChannel();
        statusReceiver := ch;
        tx := ch;
      } else {
        tx := null;
      }
      var received := statusReceiver.TryRecv();
      if received.Some? {
        status := received;
      }
    }

    /**
     * The Network view's frame as the shell sees it: the view keeps its
     * sender, and a listing, if there is one, decides the current network.
     */
    method NetworkFrame(ev: Networks.NetworkEvent, tool: Tool, parse: Networks.Parser)
      modifies network, network.statusSender
      ensures network.statusSender == old(network.statusSender)
      ensures network.networks.Some? ==> network.currentNetworkName == Networks.LastCurrentName(network.networks.value)
      ensures old(network.networks).Some? ==> network.networks.Some?
    {
      network.Ui(ev, tool, parse);
    }

    /**
     * One frame (`update`): the top bar's buttons choose the tab; the footer
     * runs, and a sender it returns goes to the Network and Node views only;
     * the Node view copies the Network view's current network as it stood
     * before this frame; then the chosen view runs its frame. Views not shown
     * keep their state.
     */
    method Update(tabClick: Option<Tab>, netEv: Networks.NetworkEvent, nodeClicked: bool,
                  filesEv: Files.FilesEvent, tool: Tool, parse: Networks.Parser,
                  launch: NodeRunning.Launcher, killOk: bool)
      requires Valid()
      modifies this, network, nodeRunner, filesView, statusReceiver
      ensures Valid()
      ensures state == if tabClick.Some? then tabClick.value else old(state)
      ensures statusReceiver != null
      ensures old(statusReceiver) != null ==> statusReceiver == old(statusReceiver)
      ensures old(statusReceiver) == null ==> fresh(statusReceiver)
      ensures status == Consume(FooterState(old(status), old(Pending(statusReceiver)))).status
      ensures nodeRunner.currentNetworkName == old(network.currentNetworkName)
      ensures state != NetworkTab ==>
        && network.openWindow == old(network.openWindow)
        && network.addNetwork == old(network.addNetwork)
        && network.switchNetwork == old(network.switchNetwork)
        && network.removeNetwork == old(network.removeNetwork)
        && network.networks == old(network.networks)
        && network.currentNetworkName == old(network.currentNetworkName)
        && network.issued == old(network.issued)
      ensures state != NodeTab ==>
        && nodeRunner.nodeState == old(nodeRunner.nodeState)
        && nodeRunner.runningNodeHandle == old(nodeRunner.runningNodeHandle)
        && nodeRunner.log == old(nodeRunner.log)
        && nodeRunner.issued == old(nodeRunner.issued)
      ensures state != FilesTab ==> unchanged(filesView)
      ensures state == NetworkTab && network.networks.Some? ==>
        network.currentNetworkName == Networks.LastCurrentName(network.networks.value)
    {
      if tabClick.Some? {
        state := tabClick.value;
      }
      var sender := Footer();
      if sender != null {
        network.statusSender := sender;
        nodeRunner.statusSender := sender;
      }
      nodeRunner.currentNetworkName := network.currentNetworkName;
      match state {
        case NetworkTab => NetworkFrame(netEv, tool, parse);
        case NodeTab => nodeRunner.Ui(nodeClicked, launch, killOk);
        case FilesTab => filesView.Ui(filesEv, tool);
      }
    }
  }
}

=== FILE: common.dfy ===
/**
 * Values shared by the views of the GUI: optional values and results, the
 * outcome of running the external `safe` tool, the grammar of the argument
 * vectors the GUI passes to it, substring search, and the status channel that
 * carries messages to the footer.
 */
module Common {

  datatype Option<+T> = None | Some(value: T)

  datatype Result<+T, +E> = Ok(value: T) | Err(error: E)

  /** The executable every subprocess runs. */
  const SAFE: string := "safe"

  /**
   * One subprocess call: the program, its argument vector and the
   * environment variables set on the child process only (the GUI's own
   * environment is untouched).
   */
  datatype Invocation = Invocation(program: string, args: seq<string>, env: map<string, string>)

  /** The bytes a child wrote to one stream, as UTF-8 decoding sees them. */
  datatype Stream = Utf8(text: string) | NotUtf8(reason: string)

  /** What `Command::output` captured once the child exited. */
  datatype Output = Output(success: bool, stdout: Stream, stderr: Stream)

  /** A child that started, or the operating-system error that stopped it. */
  datatype Spawn<+T> = Spawned(value: T) | SpawnFailed(reason: string)

  /**
   * The external tool, run to completion: the outcome of an invocation made
   * as a view's `n`-th call. `safe` keeps state between calls (its profile
   * store), so the same invocation may turn out differently each time.
   */
  type Tool = (Invocation, nat) -> Spawn<Output>

  /** A call of `safe` with no environment overrides. */
  function Plain(args: seq<string>): (inv: Invocation)
    ensures inv.program == SAFE && inv.args == args && inv.env == map[]
  {
    Invocation(SAFE, args, map[])
  }

  // ---------------------------------------------------------------------
  // The argument vectors the GUI issues
  // ---------------------------------------------------------------------

  /** The subcommands of `safe` the GUI uses, with their operands. */
  datatype Command =
    | ListNetworks
    | AddNetwork(name: string, path: string)
    | SwitchNetwork(name: string)
    | RemoveNetwork(name: string)
    | PutFiles(path: string)
    | GetFiles(url: string, dst: string)
    | NodeJoin(networkName: string)

  /**
   * The grammar of the argument vectors the GUI builds: the subcommand words
   * first, then the operands, each in its fixed place.
   */
  function ParseArgs(args: seq<string>): (r: Option<Command>)
    ensures r.Some? ==> 2 <= |args| <= 5
    ensures r.Some? ==> (r.value.NodeJoin? <==> args[0] == "node")
  {
    if |args| == 2 && args[0] == "networks" && args[1] == "--json" then
      Some(ListNetworks)
    else if |args| == 4 && args[0] == "networks" && args[1] == "add" then
      Some(AddNetwork(args[2], args[3]))
    else if |args| == 3 && args[0] == "networks" && args[1] == "switch" then
      Some(SwitchNetwork(args[2]))
    else if |args| == 3 && args[0] == "networks" && args[1] == "remove" then
      Some(RemoveNetwork(args[2]))
    else if |args| == 4 && args[0] == "networks" && args[1] == "files" && args[2] == "put" then
      Some(PutFiles(args[3]))
    else if |args| == 5 && args[0] == "networks" && args[1] == "files" && args[2] == "get" then
      Some(GetFiles(args[3], args[4]))
    else if |args| == 4 && args[0] == "node" && args[1] == "join" && args[2] == "--network-name" then
      Some(NodeJoin(args[3]))
    else
      None
  }

  /**
   * An argument vector that parses is the only one that parses to its
   * command: the vectors carry no slack, so a builder proved to parse to a
   * command builds exactly the vector for it.
   */
  lemma ParseArgsInjective(a: seq<string>, b: seq<string>)
    requires ParseArgs(a).Some? && ParseArgs(a) == ParseArgs(b)
    ensures a == b
  {
  }

  // ---------------------------------------------------------------------
  // Substring search (`str::contains`)
  // ---------------------------------------------------------------------

  /** `pat` occurs somewhere in `s`; the empty pattern occurs everywhere. */
  predicate Contains(s: string, pat: string): (b: bool)
    ensures b ==> |pat| <= |s|
    ensures pat == [] || pat == s ==> b
    decreases |s|
  {
    |pat| <= |s| && (s[..|pat|] == pat || (0 < |s| && Contains(s[1..], pat)))
  }

  /** `pat` occurs in `s` starting at position `i`. */
  predicate OccursAt(s: string, pat: string, i: nat)
  {
    i + |pat| <= |s| && s[i..i + |pat|] == pat
  }

  /** An occurrence one position into `s[1..]` is an occurrence in `s`. */
  lemma OccursAtShift(s: string, pat: string, i: nat)
    requires 0 < |s|
    ensures OccursAt(s[1..], pat, i) <==> OccursAt(s, pat, i + 1)
  {
  }

  /** Every occurrence is found. */
  lemma {:induction false} ContainsComplete(s: string, pat: string, i: nat)
    requires OccursAt(s, pat, i)
    ensures Contains(s, pat)
    decreases i
  {
    if i == 0 {
      assert s[..|pat|] == s[0..0 + |pat|];
    } else {
      OccursAtShift(s, pat, i - 1);
      ContainsComplete(s[1..], pat, i - 1);
    }
  }

  /** What is found is an occurrence. */
  lemma {:induction false} ContainsSound(s: string, pat: string) returns (i: nat)
    requires Contains(s, pat)
    ensures OccursAt(s, pat, i)
    decreases |s|
  {
    if s[..|pat|] == pat {
      assert s[0..0 + |pat|] == s[..|pat|];
      i := 0;
    } else {
      var j := ContainsSound(s[1..], pat);
      OccursAtShift(s, pat, j);
      i := j + 1;
    }
  }

  /** `Contains` finds exactly the positions at which `pat` occurs in `s`. */
  lemma ContainsIff(s: string, pat: string)
    ensures Contains(s, pat) <==> exists i: nat :: OccursAt(s, pat, i)
  {
    if Contains(s, pat) {
      var i := ContainsSound(s, pat);
    }
    if i: nat :| OccursAt(s, pat, i) {
      ContainsComplete(s, pat, i);
    }
  }

  // ---------------------------------------------------------------------
  // Status messages and their channel
  // ---------------------------------------------------------------------

  /** A line for the footer; `red` marks the error colour. */
  datatype Status = Status(text: string, red: bool)

  /**
   * The bounded asynchronous status channel (`tokio::sync::mpsc`): the views
   * hold the sending side, the footer the receiving side, and `queue` holds
   * what was sent and not yet received.
   */
  class StatusChannel {
    var queue: seq<Status>

    constructor ()
      ensures queue == []
    {
      queue := [];
    }

    /** A send appends to the end of the queue. */
    method Send(s: Status)
      modifies this
      ensures queue == old(queue) + [s]
    {
      queue := queue + [s];
    }

    /** `try_recv`: takes the oldest pending message, if there is one. */
    method TryRecv() returns (m: Option<Status>)
      modifies this
      ensures old(queue) == [] ==> m == None && queue == []
      ensures old(queue) != [] ==> m == Some(old(queue)[0]) && queue == old(queue)[1..]
      ensures old(queue) == (if m.Some? then [m.value] else []) + queue
    {
      if queue == [] {
        m := None;
      } else {
        m := Some(queue[0]);
        queue := queue[1..];
      }
    }
  }

  /** Every status sent through `ch` and not yet received; none without a sender. */
  ghost function Pending(ch: StatusChannel?): seq<Status>
    reads ch
  {
    if ch == null then [] else ch.queue
  }

  /** What of `msgs` reaches the footer through `ch`: nothing without a sender. */
  function Reaching(ch: StatusChannel?, msgs: seq<Status>): seq<Status>
  {
    if ch == null then [] else msgs
  }

  /**
   * `send_status` of every view: the message goes to the footer if the view
   * was handed a sender, and is dropped otherwise.
   */
  method SendStatus(ch: StatusChannel?, s: Status)
    modifies ch
    ensures Pending(ch) == old(Pending(ch)) + Reaching(ch, [s])
  {
    if ch != null {
      ch.Send(s);
    }
  }
}

=== FILE: files.dfy ===
/**
 * The Files view: a Put/Get mode switch, a form per mode validated before
 * `safe networks files put` or `safe networks files get` runs, and a text
 * area showing the output of the last successful put.
 */
module Files {
  import opened Common

  datatype FilesState = Put | Get

  datatype PutState = PutState(path: string, pathError: bool)

  datatype GetState = GetState(url: string, urlError: bool, dst: string)

  /** `GetState::default()`: files are fetched into the working directory. */
  const DEFAULT_GET_STATE := GetState("", false, ".")

  /** The error text of both subcommands (a failed get says "put" as well). */
  const PUT_FAILED: string := "Error: failed to put file"

  const PUT_DONE := Status("Successfully added file to the network", false)
  const GET_DONE := Status("Successfully retrieved files from the network", false)

  function PutArgs(path: string): (args: seq<string>)
    ensures ParseArgs(args) == Some(PutFiles(path))
  {
    ["networks", "files", "put", path]
  }

  function GetArgs(url: string, dst: string): (args: seq<string>)
    ensures ParseArgs(args) == Some(GetFiles(url, dst))
  {
    ["networks", "files", "get", url, dst]
  }

  /**
   * `put_files`: the decoded standard output of a successful run; a failed
   * exit is an error whatever was printed.
   */
  function PutFilesCmd(out: Spawn<Output>): (r: Result<string, string>)
    ensures r.Ok? <==> out.Spawned? && out.value.success && out.value.stdout.Utf8?
    ensures r.Ok? ==> r.value == out.value.stdout.text
    ensures out.Spawned? && !out.value.success ==> r == Err(PUT_FAILED)
  {
    match out
    case SpawnFailed(reason) => Err(reason)
    case Spawned(o) =>
      if !o.success then Err(PUT_FAILED)
      else match o.stdout
        case NotUtf8(reason) => Err(reason)
        case Utf8(text) => Ok(text)
  }

  /** `get_files`: succeeds exactly when the child ran and exited successfully. */
  function GetFilesCmd(out: Spawn<Output>): (r: Result<(), string>)
    ensures r.Ok? <==> out.Spawned? && out.value.success
    ensures out.Spawned? && !out.value.success ==> r == Err(PUT_FAILED)
  {
    match out
    case SpawnFailed(reason) => Err(reason)
    case Spawned(o) => if !o.success then Err(PUT_FAILED) else Ok(())
  }

  /** What the user does in one frame of the view. */
  datatype FilesEvent =
    | NoInput
    | SelectPut
    | SelectGet
    | EditPath(text: string)  // typed, or chosen with the file dialog
    | EditUrl(text: string)
    | EditDst(text: string)   // typed, or chosen with the folder dialog
    | EditOutput(text: string)
    | SubmitPut
    | SubmitGet

  /** The Files view's state (`FilesView`); `issued` records every call of `safe`. */
  class FilesView {
    var filesState: FilesState
    var putState: PutState
    var getState: GetState
    var cmdOutput: string
    var statusSender: StatusChannel?
    var issued: seq<Invocation>

    /** `FilesView::default()`: Put mode, empty forms, destination ".". */
    constructor ()
      ensures filesState == Put && putState == PutState("", false)
      ensures getState == DEFAULT_GET_STATE && cmdOutput == ""
      ensures statusSender == null && issued == []
    {
      filesState := Put;
      putState := PutState("", false);
      getState := DEFAULT_GET_STATE;
      cmdOutput := "";
      statusSender := null;
      issued := [];
    }

    /** The side panel's Put and Get buttons: only the mode changes. */
    method Select(mode: FilesState)
      modifies this`filesState
      ensures filesState == mode
    {
      filesState := mode;
    }

    /**
     * The "Put!" button, shown in Put mode: the error flag is set exactly
     * when the path is empty, and the upload runs only when it is not. On
     * success the path is cleared and the output shows the tool's standard
     * output; on failure both stay as they were.
     */
    method SubmitPutForm(tool: Tool)
      requires filesState == Put
      modifies this`putState, this`cmdOutput, this`issued, statusSender
      ensures var path := old(putState.path);
        && putState.pathError == (path == "")
        && (path == "" ==>
              && putState.path == path && cmdOutput == old(cmdOutput)
              && issued == old(issued) && Pending(statusSender) == old(Pending(statusSender)))
        && (path != "" ==>
              var inv := Plain(PutArgs(path));
              var r := PutFilesCmd(tool(inv, |old(issued)|));
              && issued == old(issued) + [inv]
              && (r.Ok? ==>
                    && putState.path == "" && cmdOutput == r.value
                    && Pending(statusSender) == old(Pending(statusSender)) + Reaching(statusSender, [PUT_DONE]))
              && (r.Err? ==>
                    && putState.path == path && cmdOutput == old(cmdOutput)
                    && Pending(statusSender) == old(Pending(statusSender)) + Reaching(statusSender, [Status(r.error, true)])))
    {
      putState := putState.(pathError := putState.path == "");
      if !putState.pathError {
        var inv := Plain(PutArgs(putState.path));
        var out := tool(inv, |issued|);
        issued := issued + [inv];
        match PutFilesCmd(out)
        case Ok(output) =>
          SendStatus(statusSender, PUT_DONE);
          putState := putState.(path := "");
          cmdOutput := output;
        case Err(err) =>
          SendStatus(statusSender, Status(err, true));
      }
    }

    /**
     * The "Get!" button, shown in Get mode: the error flag is set exactly when
     * the url is empty, and the download runs only when it is not. On success
     * the url is cleared and the destination kept.
     */
    method SubmitGetForm(tool: Tool)
      requires filesState == Get
      modifies this`getState, this`issued, statusSender
      ensures var url, dst := old(getState.url), old(getState.dst);
        && getState.urlError == (url == "") && getState.dst == dst
        && (url == "" ==>
              && getState.url == url
              && issued == old(issued) && Pending(statusSender) == old(Pending(statusSender)))
        && (url != "" ==>
              var inv := Plain(GetArgs(url, dst));
              var r := GetFilesCmd(tool(inv, |old(issued)|));
              && issued == old(issued) + [inv]
              && (r.Ok? ==>
                    && getState.url == ""
                    && Pending(statusSender) == old(Pending(statusSender)) + Reaching(statusSender, [GET_DONE]))
              && (r.Err? ==>
                    && getState.url == url
                    && Pending(statusSender) == old(Pending(statusSender)) + Reaching(statusSender, [Status(r.error, true)])))
    {
      getState := getState.(urlError := getState.url == "");
      if !getState.urlError {
        var inv := Plain(GetArgs(getState.url, getState.dst));
        var out := tool(inv, |issued|);
        issued := issued + [inv];
        match GetFilesCmd(out)
        case Ok(_) =>
          SendStatus(statusSender, GET_DONE);
          getState := getState.(url := "");
        case Err(err) =>
          SendStatus(statusSender, Status(err, true));
      }
    }

    /**
     * One frame of the view (`ui`): the side panel's mode buttons, then the
     * form of the (new) mode, then the output area. Input for the form of the
     * other mode changes nothing.
     */
    method Ui(ev: FilesEvent, tool: Tool)
      modifies this, statusSender
      ensures statusSender == old(statusSender)
      ensures ev.SelectPut? ==> filesState == Put
      ensures ev.SelectGet? ==> filesState == Get
      ensures !(ev.SelectPut? || ev.SelectGet?) ==> filesState == old(filesState)
      ensures ev.SelectPut? || ev.SelectGet? || ev.NoInput? ==>
        && putState == old(putState) && getState == old(getState) && cmdOutput == old(cmdOutput)
        && issued == old(issued) && Pending(statusSender) == old(Pending(statusSender))
      ensures filesState == Get && (ev.EditPath? || ev.SubmitPut?) ==>
        && putState == old(putState) && getState == old(getState) && cmdOutput == old(cmdOutput)
        && issued == old(issued) && Pending(statusSender) == old(Pending(statusSender))
      ensures filesState == Put && (ev.EditUrl? || ev.EditDst? || ev.SubmitGet?) ==>
        && putState == old(putState) && getState == old(getState) && cmdOutput == old(cmdOutput)
        && issued == old(issued) && Pending(statusSender) == old(Pending(statusSender))
      ensures old(filesState) == Put && ev.EditPath? ==>
        && putState == old(putState).(path := ev.text) && getState == old(getState)
        && cmdOutput == old(cmdOutput) && issued == old(issued) && Pending(statusSender) == old(Pending(statusSender))
      ensures old(filesState) == Get && ev.EditUrl? ==>
        && getState == old(getState).(url := ev.text) && putState == old(putState)
        && cmdOutput == old(cmdOutput) && issued == old(issued) && Pending(statusSender) == old(Pending(statusSender))
      ensures old(filesState) == Get && ev.EditDst? ==>
        && getState == old(getState).(dst := ev.text) && putState == old(putState)
        && cmdOutput == old(cmdOutput) && issued == old(issued) && Pending(statusSender) == old(Pending(statusSender))
      ensures ev.EditOutput? ==> cmdOutput == ev.text
      ensures ev.SubmitPut? && filesState == Put ==> putState.pathError == (old(putState.path) == "")
      ensures ev.SubmitGet? && filesState == Get ==> getState.urlError == (old(getState.url) == "") && getState.dst == old(getState.dst)
    {
      match ev {
        case SelectPut => Select(Put);
        case SelectGet => Select(Get);
        case _ =>
      }
      match filesState {
        case Put =>
          match ev {
            case EditPath(text) => putState := putState.(path := text);
            case SubmitPut => SubmitPutForm(tool);
            case _ =>
          }
        case Get =>
          match ev {
            case EditUrl(text) => getState := getState.(url := text);
            case EditDst(text) => getState := getState.(dst := text);
            case SubmitGet => SubmitGetForm(tool);
            case _ =>
          }
      }
      match ev {
        case EditOutput(text) => cmdOutput := text;
        case _ =>
      }
    }
  }
}

=== FILE: network.dfy ===
/**
 * The Network view: lists the network profiles `safe` knows, derives the
 * current one, and offers three modal windows (Add, Switch, Remove) whose
 * forms are validated before the matching `safe networks` subcommand runs.
 */
module Networks {
  import opened Common

  /** One entry of `safe networks --json`. */
  datatype NetworkPrinter = NetworkPrinter(current: bool, name: string, genesisKey: string, networkInfo: string)

  /** The JSON decoder: a listing, or the decoder's error message. */
  type Parser = string -> Result<seq<NetworkPrinter>, string>

  datatype OpenWindow = AddWindow | SwitchWindow | RemoveWindow

  /** The Add window's form (`AddNetwork`). */
  datatype AddForm = AddForm(initialFocusDone: bool, name: string, nameError: bool, path: string, pathError: bool)

  /** The Switch and Remove windows' form (`SwitchNetwork`, `RemoveNetwork`). */
  datatype NameForm = NameForm(name: string, nameError: bool)

  /** The marker `safe` prints when no profile has the given name. */
  const WITH_NAME: string := "with name"

  const FETCH_FAILED: string := "Error: failed to fetch networks"
  const ADD_FAILED: string := "Error: failed to add network"
  const SWITCH_FAILED: string := "Error: failed to switch network"
  const REMOVE_FAILED: string := "Error: failed to remove network"

  function SwitchNotFound(name: string): string
  {
    "Error: failed to switch network. No network with name " + name + " found!"
  }

  function RemoveNotFound(name: string): string
  {
    "Error: failed to remove network. No network with name " + name + " found!"
  }

  // ---------------------------------------------------------------------
  // Argument vectors
  // ---------------------------------------------------------------------

  function ListArgs(): (args: seq<string>)
    ensures ParseArgs(args) == Some(ListNetworks)
  {
    ["networks", "--json"]
  }

  function AddArgs(name: string, path: string): (args: seq<string>)
    ensures ParseArgs(args) == Some(AddNetwork(name, path))
  {
    ["networks", "add", name, path]
  }

  function SwitchArgs(name: string): (args: seq<string>)
    ensures ParseArgs(args) == Some(SwitchNetwork(name))
  {
    ["networks", "switch", name]
  }

  function RemoveArgs(name: string): (args: seq<string>)
    ensures ParseArgs(args) == Some(RemoveNetwork(name))
  {
    ["networks", "remove", name]
  }

  // ---------------------------------------------------------------------
  // Classifying the outcome of each subcommand
  // ---------------------------------------------------------------------

  /**
   * `get_networks_cmd`: the listing is the decoded standard output of a
   * successful run; a failed exit is reported as such, whatever it printed.
   */
  function GetNetworksCmd(out: Spawn<Output>, parse: Parser): (r: Result<seq<NetworkPrinter>, string>)
    ensures r.Ok? <==> out.Spawned? && out.value.success && out.value.stdout.Utf8? && parse(out.value.stdout.text).Ok?
    ensures r.Ok? ==> r == parse(out.value.stdout.text)
    ensures out.Spawned? && !out.value.success ==> r == Err(FETCH_FAILED)
  {
    match out
    case SpawnFailed(reason) => Err(reason)
    case Spawned(o) =>
      if !o.success then Err(FETCH_FAILED)
      else match o.stdout
        case NotUtf8(reason) => Err(reason)
        case Utf8(text) => parse(text)
  }

  /** `add_networks_cmd`: succeeds exactly when the child ran and exited successfully. */
  function AddNetworkCmd(out: Spawn<Output>): (r: Result<(), string>)
    ensures r.Ok? <==> out.Spawned? && out.value.success
    ensures out.Spawned? && !out.value.success ==> r == Err(ADD_FAILED)
  {
    match out
    case SpawnFailed(reason) => Err(reason)
    case Spawned(o) => if !o.success then Err(ADD_FAILED) else Ok(())
  }

  /**
   * `switch_networks_cmd`: a successful exit is success whatever was printed;
   * only a failed exit looks at standard error, and "with name" there means
   * the profile does not exist.
   */
  function SwitchNetworkCmd(name: string, out: Spawn<Output>): (r: Result<(), string>)
    ensures r.Ok? <==> out.Spawned? && out.value.success
    ensures out.Spawned? && !out.value.success && out.value.stderr.Utf8? ==>
      r == Err(if Contains(out.value.stderr.text, WITH_NAME) then SwitchNotFound(name) else SWITCH_FAILED)
  {
    match out
    case SpawnFailed(reason) => Err(reason)
    case Spawned(o) =>
      if !o.success then
        match o.stderr
        case NotUtf8(reason) => Err(reason)
        case Utf8(stderr) =>
          if Contains(stderr, WITH_NAME) then Err(SwitchNotFound(name)) else Err(SWITCH_FAILED)
      else Ok(())
  }

  /**
   * `remove_network_cmd`: standard output is decoded and searched first, so
   * "with name" there is a not-found error even after a successful exit; the
   * exit status decides only after that.
   */
  function RemoveNetworkCmd(name: string, out: Spawn<Output>): (r: Result<(), string>)
    ensures r.Ok? <==> && out.Spawned? && out.value.success && out.value.stdout.Utf8?
                       && !Contains(out.value.stdout.text, WITH_NAME)
    ensures out.Spawned? && out.value.stdout.Utf8? && Contains(out.value.stdout.text, WITH_NAME) ==>
      r == Err(RemoveNotFound(name))
    ensures out.Spawned? && out.value.stdout.Utf8? && !Contains(out.value.stdout.text, WITH_NAME) && !out.value.success ==>
      r == Err(REMOVE_FAILED)
  {
    match out
    case SpawnFailed(reason) => Err(reason)
    case Spawned(o) =>
      match o.stdout
      case NotUtf8(reason) => Err(reason)
      case Utf8(stdout) =>
        if Contains(stdout, WITH_NAME) then Err(RemoveNotFound(name))
        else if !o.success then Err(REMOVE_FAILED)
        else Ok(())
  }

  /** A failed switch whose standard error names a missing profile anywhere reports it. */
  lemma SwitchReportsNotFound(name: string, o: Output, i: nat)
    requires !o.success && o.stderr.Utf8? && OccursAt(o.stderr.text, WITH_NAME, i)
    ensures SwitchNetworkCmd(name, Spawned(o)) == Err(SwitchNotFound(name))
  {
    ContainsIff(o.stderr.text, WITH_NAME);
  }

  /** A remove whose standard output names a missing profile anywhere fails, even on a successful exit. */
  lemma RemoveReportsNotFound(name: string, o: Output, i: nat)
    requires o.stdout.Utf8? && OccursAt(o.stdout.text, WITH_NAME, i)
    ensures RemoveNetworkCmd(name, Spawned(o)) == Err(RemoveNotFound(name))
  {
    ContainsIff(o.stdout.text, WITH_NAME);
  }

  /** The listing fetch as the view runs it, as its `n`-th call of `safe`. */
  function Fetch(tool: Tool, parse: Parser, n: nat): Result<seq<NetworkPrinter>, string>
  {
    GetNetworksCmd(tool(Plain(ListArgs()), n), parse)
  }

  /** The stored listing after a fetch: replaced on success, kept on failure. */
  function Fetched(prev: Option<seq<NetworkPrinter>>, r: Result<seq<NetworkPrinter>, string>): Option<seq<NetworkPrinter>>
  {
    if r.Ok? then Some(r.value) else prev
  }

  /** The statuses a fetch sends: its error, if it failed. */
  function FetchStatus(r: Result<seq<NetworkPrinter>, string>): seq<Status>
  {
    if r.Ok? then [] else [Status(r.error, true)]
  }

  // ---------------------------------------------------------------------
  // The current network
  // ---------------------------------------------------------------------

  /** The name of the last entry marked current, scanning the listing in order. */
  function LastCurrentName(networks: seq<NetworkPrinter>): (r: Option<string>)
    ensures r.Some? ==> exists i :: 0 <= i < |networks| && networks[i].current && networks[i].name == r.value
  {
    if networks == [] then None
    else if networks[|networks| - 1].current then Some(networks[|networks| - 1].name)
    else LastCurrentName(networks[..|networks| - 1])
  }

  /** Entry `i` is current and no later entry is. */
  ghost predicate IsLastCurrent(networks: seq<NetworkPrinter>, i: int)
  {
    0 <= i < |networks| && networks[i].current &&
    forall j :: i < j < |networks| ==> !networks[j].current
  }

  /**
   * The derived name is absent exactly when no entry is current, and is the
   * name of the last current entry otherwise.
   */
  lemma {:induction false} LastCurrentNameSpec(networks: seq<NetworkPrinter>)
    ensures LastCurrentName(networks) == None <==> forall j :: 0 <= j < |networks| ==> !networks[j].current
    ensures forall i :: IsLastCurrent(networks, i) ==> LastCurrentName(networks) == Some(networks[i].name)
  {
    if networks != [] {
      var n := |networks| - 1;
      var init := networks[..n];
      if !networks[n].current {
        LastCurrentNameSpec(init);
        forall i | IsLastCurrent(networks, i)
          ensures LastCurrentName(networks) == Some(networks[i].name)
        {
          assert IsLastCurrent(init, i);
        }
        if LastCurrentName(networks) == None {
          forall j | 0 <= j < |networks| ensures !networks[j].current {
            if j < n {
              assert init[j] == networks[j];
            }
          }
        }
      }
    }
  }

  // ---------------------------------------------------------------------
  // The view
  // ---------------------------------------------------------------------

  /** What the user does in one frame of the view. */
  datatype NetworkEvent =
    | NoInput
    | EditAddName(text: string)
    | EditAddPath(text: string)  // typed, or chosen with the file dialog
    | EditSwitchName(text: string)
    | EditRemoveName(text: string)
    | WindowClose
    | WindowAdd
    | WindowSwitch
    | WindowRemove
    | PanelRefresh
    | PanelRemove
    | PanelSwitch
    | PanelAdd

  /** `ev` is one of the panel's buttons. */
  predicate PanelInput(ev: NetworkEvent)
  {
    ev.PanelRefresh? || ev.PanelAdd? || ev.PanelSwitch? || ev.PanelRemove?
  }

  /**
   * What the windows can change in one frame, as one value: the open window,
   * the three forms, the listing, the calls of `safe` issued so far and the
   * statuses sent and not yet received.
   */
  datatype ViewState = ViewState(window: Option<OpenWindow>, add: AddForm, switch: NameForm, remove: NameForm,
                                 networks: Option<seq<NetworkPrinter>>, issued: seq<Invocation>, pending: seq<Status>)

  /**
   * `t` is `s` after the Add window's "Add" button, with statuses sent on
   * `ch`: each error flag is set exactly when its field is empty, and
   * `safe networks add` runs only when neither is. On success the form is
   * cleared, the window closed and the listing fetched again; on failure the
   * fields and the window stay. The other forms are untouched.
   */
  predicate AddStep(s: ViewState, t: ViewState, ch: StatusChannel?, tool: Tool, parse: Parser)
  {
    var name, path, n := s.add.name, s.add.path, |s.issued|;
    && t.add.initialFocusDone == s.add.initialFocusDone
    && t.add.nameError == (name == "") && t.add.pathError == (path == "")
    && t.switch == s.switch && t.remove == s.remove
    && (name == "" || path == "" ==>
          && t.add.name == name && t.add.path == path
          && t.window == s.window && t.networks == s.networks
          && t.issued == s.issued && t.pending == s.pending)
    && (name != "" && path != "" ==>
          var inv := Plain(AddArgs(name, path));
          var r := AddNetworkCmd(tool(inv, n));
          && (r.Err? ==>
                && t.add.name == name && t.add.path == path
                && t.window == s.window && t.networks == s.networks
                && t.issued == s.issued + [inv]
                && t.pending == s.pending + Reaching(ch, [Status(r.error, true)]))
          && (r.Ok? ==>
                var f := Fetch(tool, parse, n + 1);
                && t.add.name == "" && t.add.path == ""
                && t.window == None && t.networks == Fetched(s.networks, f)
                && t.issued == s.issued + [inv, Plain(ListArgs())]
                && t.pending == s.pending +
                     Reaching(ch, [Status("Success: Added a network with name " + name, false)] + FetchStatus(f))))
  }

  /**
   * `t` is `s` after the Switch window's "Switch" button: the error flag is
   * set exactly when the name is empty, and `safe networks switch` runs only
   * when it is not. On success the name is cleared, the window closed and
   * the listing fetched again; on failure the name and the window stay.
   */
  predicate SwitchStep(s: ViewState, t: ViewState, ch: StatusChannel?, tool: Tool, parse: Parser)
  {
    var name, n := s.switch.name, |s.issued|;
    && t.switch.nameError == (name == "")
    && t.add == s.add && t.remove == s.remove
    && (name == "" ==>
          && t.switch.name == name
          && t.window == s.window && t.networks == s.networks
          && t.issued == s.issued && t.pending == s.pending)
    && (name != "" ==>
          var inv := Plain(SwitchArgs(name));
          var r := SwitchNetworkCmd(name, tool(inv, n));
          && (r.Err? ==>
                && t.switch.name == name
                && t.window == s.window && t.networks == s.networks
                && t.issued == s.issued + [inv]
                && t.pending == s.pending + Reaching(ch, [Status(r.error, true)]))
          && (r.Ok? ==>
                var f := Fetch(tool, parse, n + 1);
                && t.switch.name == ""
                && t.window == None && t.networks == Fetched(s.networks, f)
                && t.issued == s.issued + [inv, Plain(ListArgs())]
                && t.pending == s.pending +
                     Reaching(ch, [Status("Success: Switched to network: " + name, false)] + FetchStatus(f))))
  }

  /**
   * `t` is `s` after the Remove window's "Remove" button, validated and reset
   * like Switch, running `safe networks remove`.
   */
  predicate RemoveStep(s: ViewState, t: ViewState, ch: StatusChannel?, tool: Tool, parse: Parser)
  {
    var name, n := s.remove.name, |s.issued|;
    && t.remove.nameError == (name == "")
    && t.add == s.add && t.switch == s.switch
    && (name == "" ==>
          && t.remove.name == name
          && t.window == s.window && t.networks == s.networks
          && t.issued == s.issued && t.pending == s.pending)
    && (name != "" ==>
          var inv := Plain(RemoveArgs(name));
          var r := RemoveNetworkCmd(name, tool(inv, n));
          && (r.Err? ==>
                && t.remove.name == name
                && t.window == s.window && t.networks == s.networks
                && t.issued == s.issued + [inv]
                && t.pending == s.pending + Reaching(ch, [Status(r.error, true)]))
          && (r.Ok? ==>
                var f := Fetch(tool, parse, n + 1);
                && t.remove.name == ""
                && t.window == None && t.networks == Fetched(s.networks, f)
                && t.issued == s.issued + [inv, Plain(ListArgs())]
                && t.pending == s.pending +
                     Reaching(ch, [Status("Success: Removed network: " + name, false)] + FetchStatus(f))))
  }

  /**
   * `get_networks` on the windows' state, as the view's next call of `safe`:
   * the listing is replaced on success and kept on failure, and a failure is
   * sent as a red status.
   */
  function Refetched(s: ViewState, ch: StatusChannel?, tool: Tool, parse: Parser): (t: ViewState)
    ensures t.issued == s.issued + [Plain(ListArgs())]
    ensures t.networks == Fetched(s.networks, Fetch(tool, parse, |s.issued|))
    ensures t.pending == s.pending + Reaching(ch, FetchStatus(Fetch(tool, parse, |s.issued|)))
    ensures t.window == s.window && t.add == s.add && t.switch == s.switch && t.remove == s.remove
  {
    var f := Fetch(tool, parse, |s.issued|);
    s.(networks := Fetched(s.networks, f), issued := s.issued + [Plain(ListArgs())],
       pending := s.pending + Reaching(ch, FetchStatus(f)))
  }

  /** The Add button's effect on the windows' state, proved to be an `AddStep`. */
  function AfterAdd(s: ViewState, ch: StatusChannel?, tool: Tool, parse: Parser): (t: ViewState)
    ensures AddStep(s, t, ch, tool, parse)
  {
    var name, path, n := s.add.name, s.add.path, |s.issued|;
    var checked := s.(add := s.add.(nameError := name == "", pathError := path == ""));
    if name == "" || path == "" then checked
    else
      var inv := Plain(AddArgs(name, path));
      match AddNetworkCmd(tool(inv, n))
      case Err(e) =>
        checked.(issued := s.issued + [inv], pending := s.pending + Reaching(ch, [Status(e, true)]))
      case Ok(_) =>
        var done := checked.(add := AddForm(s.add.initialFocusDone, "", false, "", false), window := None,
                             issued := s.issued + [inv],
                             pending := s.pending + Reaching(ch, [Status("Success: Added a network with name " + name, false)]));
        Refetched(done, ch, tool, parse)
  }

  /** The Switch button's effect on the windows' state, proved to be a `SwitchStep`. */
  function AfterSwitch(s: ViewState, ch: StatusChannel?, tool: Tool, parse: Parser): (t: ViewState)
    ensures SwitchStep(s, t, ch, tool, parse)
  {
    var name, n := s.switch.name, |s.issued|;
    var checked := s.(switch := s.switch.(nameError := name == ""));
    if name == "" then checked
    else
      var inv := Plain(SwitchArgs(name));
      match SwitchNetworkCmd(name, tool(inv, n))
      case Err(e) =>
        checked.(issued := s.issued + [inv], pending := s.pending + Reaching(ch, [Status(e, true)]))
      case Ok(_) =>
        var done := checked.(switch := NameForm("", false), window := None, issued := s.issued + [inv],
                             pending := s.pending + Reaching(ch, [Status("Success: Switched to network: " + name, false)]));
        Refetched(done, ch, tool, parse)
  }

  /** The Remove button's effect on the windows' state, proved to be a `RemoveStep`. */
  function AfterRemove(s: ViewState, ch: StatusChannel?, tool: Tool, parse: Parser): (t: ViewState)
    ensures RemoveStep(s, t, ch, tool, parse)
  {
    var name, n := s.remove.name, |s.issued|;
    var checked := s.(remove := s.remove.(nameError := name == ""));
    if name == "" then checked
    else
      var inv := Plain(RemoveArgs(name));
      match RemoveNetworkCmd(name, tool(inv, n))
      case Err(e) =>
        checked.(issued := s.issued + [inv], pending := s.pending + Reaching(ch, [Status(e, true)]))
      case Ok(_) =>
        var done := checked.(remove := NameForm("", false), window := None, issued := s.issued + [inv],
                             pending := s.pending + Reaching(ch, [Status("Success: Removed network: " + name, false)]));
        Refetched(done, ch, tool, parse)
  }

  /** `s` once its open window is drawn: the Add window takes the initial focus. */
  function Drawn(s: ViewState): (d: ViewState)
    ensures d.window == s.window && d.switch == s.switch && d.remove == s.remove
    ensures d.add == if s.window == Some(AddWindow) then s.add.(initialFocusDone := true) else s.add
  {
    if s.window == Some(AddWindow) then s.(add := s.add.(initialFocusDone := true)) else s
  }

  /**
   * `t` is `s` after the Add window handled `ev`: the window takes the
   * initial focus once drawn; Close closes it, an edit replaces its field,
   * "Add" submits the form, and any other input changes nothing else.
   */
  predicate AddWindowStep(ev: NetworkEvent, s: ViewState, t: ViewState, ch: StatusChannel?, tool: Tool, parse: Parser)
  {
    var d := Drawn(s.(window := Some(AddWindow)));
    match ev
    case EditAddName(text) => t == d.(add := d.add.(name := text))
    case EditAddPath(text) => t == d.(add := d.add.(path := text))
    case WindowClose => t == d.(window := None)
    case WindowAdd => t == AfterAdd(d, ch, tool, parse)
    case _ => t == d
  }

  /**
   * `t` is `s` after the Switch window handled `ev`: Close closes it, an edit
   * replaces the name, "Switch" submits the form, and any other input changes
   * nothing.
   */
  predicate SwitchWindowStep(ev: NetworkEvent, s: ViewState, t: ViewState, ch: StatusChannel?, tool: Tool, parse: Parser)
  {
    match ev
    case EditSwitchName(text) => t == s.(switch := s.switch.(name := text))
    case WindowClose => t == s.(window := None)
    case WindowSwitch => t == AfterSwitch(s, ch, tool, parse)
    case _ => t == s
  }

  /**
   * `t` is `s` after the Remove window handled `ev`: Close closes it, an edit
   * replaces the name, "Remove" submits the form, and any other input changes
   * nothing.
   */
  predicate RemoveWindowStep(ev: NetworkEvent, s: ViewState, t: ViewState, ch: StatusChannel?, tool: Tool, parse: Parser)
  {
    match ev
    case EditRemoveName(text) => t == s.(remove := s.remove.(name := text))
    case WindowClose => t == s.(window := None)
    case WindowRemove => t == AfterRemove(s, ch, tool, parse)
    case _ => t == s
  }

  /** `t` is `s` after the open window, if any, handled `ev`; with none open nothing changes. */
  predicate WindowStep(ev: NetworkEvent, s: ViewState, t: ViewState, ch: StatusChannel?, tool: Tool, parse: Parser)
  {
    match s.window
    case None => t == s
    case Some(AddWindow) => AddWindowStep(ev, s, t, ch, tool, parse)
    case Some(SwitchWindow) => SwitchWindowStep(ev, s, t, ch, tool, parse)
    case Some(RemoveWindow) => RemoveWindowStep(ev, s, t, ch, tool, parse)
  }

  lemma AddWindowStepKeeps(ev: NetworkEvent, s: ViewState, t: ViewState, ch: StatusChannel?, tool: Tool, parse: Parser)
    requires s.window == Some(AddWindow) && AddWindowStep(ev, s, t, ch, tool, parse)
    ensures s.networks.Some? ==> t.networks.Some?
    ensures s.issued <= t.issued
    ensures t.window == s.window || t.window == None
  {
  }

  lemma SwitchWindowStepKeeps(ev: NetworkEvent, s: ViewState, t: ViewState, ch: StatusChannel?, tool: Tool, parse: Parser)
    requires s.window == Some(SwitchWindow) && SwitchWindowStep(ev, s, t, ch, tool, parse)
    ensures s.networks.Some? ==> t.networks.Some?
    ensures s.issued <= t.issued
    ensures t.window == s.window || t.window == None
  {
  }

  lemma RemoveWindowStepKeeps(ev: NetworkEvent, s: ViewState, t: ViewState, ch: StatusChannel?, tool: Tool, parse: Parser)
    requires s.window == Some(RemoveWindow) && RemoveWindowStep(ev, s, t, ch, tool, parse)
    ensures s.networks.Some? ==> t.networks.Some?
    ensures s.issued <= t.issued
    ensures t.window == s.window || t.window == None
  {
  }

  /**
   * A window never loses a fetched listing, only adds to the calls of
   * `safe`, and can close but never open a window.
   */
  lemma WindowStepKeeps(ev: NetworkEvent, s: ViewState, t: ViewState, ch: StatusChannel?, tool: Tool, parse: Parser)
    requires WindowStep(ev, s, t, ch, tool, parse)
    ensures s.networks.Some? ==> t.networks.Some?
    ensures s.issued <= t.issued
    ensures t.window == s.window || t.window == None
  {
    match s.window
    case None =>
    case Some(AddWindow) => AddWindowStepKeeps(ev, s, t, ch, tool, parse);
    case Some(SwitchWindow) => SwitchWindowStepKeeps(ev, s, t, ch, tool, parse);
    case Some(RemoveWindow) => RemoveWindowStepKeeps(ev, s, t, ch, tool, parse);
  }

  /**
   * `t` is `s` after the panel handled `ev`: refresh fetches the listing
   * again; each of Add, Switch and Remove closes an open window and
   * otherwise opens its own, opening Add asking for focus on its first field
   * again; any other input changes nothing.
   */
  predicate PanelStep(ev: NetworkEvent, s: ViewState, t: ViewState, ch: StatusChannel?, tool: Tool, parse: Parser)
  {
    match ev
    case PanelRefresh => t == Refetched(s, ch, tool, parse)
    case PanelAdd =>
      if s.window.None? then t == s.(window := Some(AddWindow), add := s.add.(initialFocusDone := false))
      else t == s.(window := None)
    case PanelSwitch => t == s.(window := if s.window.None? then Some(SwitchWindow) else None)
    case PanelRemove => t == s.(window := if s.window.None? then Some(RemoveWindow) else None)
    case _ => t == s
  }

  /** The panel never loses a fetched listing and only adds to the calls of `safe`. */
  lemma PanelStepKeeps(ev: NetworkEvent, s: ViewState, t: ViewState, ch: StatusChannel?, tool: Tool, parse: Parser)
    requires PanelStep(ev, s, t, ch, tool, parse)
    ensures s.networks.Some? ==> t.networks.Some?
    ensures s.issued <= t.issued
  {
  }

  /**
   * `t` is `s` after one input handled by the windows and the panel: panel
   * input acts on the drawn state, any other input is the open window's.
   */
  predicate FrameHandled(ev: NetworkEvent, s: ViewState, t: ViewState, ch: StatusChannel?, tool: Tool, parse: Parser)
  {
    if PanelInput(ev) then PanelStep(ev, Drawn(s), t, ch, tool, parse) else WindowStep(ev, s, t, ch, tool, parse)
  }

  /**
   * A frame's window step `s` to `m` followed by its panel step `m` to `t`:
   * one input acts in one place only. Panel input only draws the window, so
   * the panel acts on the drawn state; any other input is the window's alone.
   * A listing is never lost, calls are only added, input with no window open
   * is ignored unless it is the panel's, and a panel toggle closes an open
   * window.
   */
  lemma FrameSteps(ev: NetworkEvent, s: ViewState, m: ViewState, t: ViewState, ch: StatusChannel?, tool: Tool, parse: Parser)
    requires WindowStep(ev, s, m, ch, tool, parse) && PanelStep(ev, m, t, ch, tool, parse)
    ensures s.networks.Some? ==> t.networks.Some?
    ensures s.issued <= t.issued
    ensures !PanelInput(ev) ==> t == m
    ensures PanelInput(ev) ==> m == Drawn(s)
    ensures s.window.None? && !PanelInput(ev) ==> t == s
    ensures s.window.Some? && (ev.PanelAdd? || ev.PanelSwitch? || ev.PanelRemove?) ==> t.window == None
  {
    WindowStepKeeps(ev, s, m, ch, tool, parse);
    PanelStepKeeps(ev, m, t, ch, tool, parse);
  }

  const EMPTY_ADD_FORM := AddForm(false, "", false, "", false)
  const EMPTY_NAME_FORM := NameForm("", false)

  /** The Network view's state (`Network`); `issued` records every call of `safe`. */
  class Network {
    var openWindow: Option<OpenWindow>
    var addNetwork: AddForm
    var switchNetwork: NameForm
    var removeNetwork: NameForm
    var networks: Option<seq<NetworkPrinter>>
    var currentNetworkName: Option<string>
    var statusSender: StatusChannel?
    var issued: seq<Invocation>

    /** `Network::default()`: no window, empty forms, nothing fetched yet. */
    constructor ()
      ensures openWindow == None && addNetwork == EMPTY_ADD_FORM
      ensures switchNetwork == EMPTY_NAME_FORM && removeNetwork == EMPTY_NAME_FORM
      ensures networks == None && currentNetworkName == None
      ensures statusSender == null && issued == []
    {
      openWindow := None;
      addNetwork := EMPTY_ADD_FORM;
      switchNetwork := EMPTY_NAME_FORM;
      removeNetwork := EMPTY_NAME_FORM;
      networks := None;
      currentNetworkName := None;
      statusSender := null;
      issued := [];
    }

    /** `get_networks`: the listing is replaced on success and kept on failure. */
    method GetNetworks(tool: Tool, parse: Parser)
      modifies this`networks, this`issued, statusSender
      ensures State() == Refetched(old(State()), statusSender, tool, parse)
    {
      var inv := Plain(ListArgs());
      var out := tool(inv, |issued|);
      issued := issued + [inv];
      match GetNetworksCmd(out, parse)
      case Ok(list) =>
        networks := Some(list);
      case Err(err) =>
        SendStatus(statusSender, Status(err, true));
    }

    /** The part of the view's state the windows can change. */
    ghost function State(): ViewState
      reads this`openWindow, this`addNetwork, this`switchNetwork, this`removeNetwork
      reads this`networks, this`issued, this`statusSender, statusSender
    {
      ViewState(openWindow, addNetwork, switchNetwork, removeNetwork, networks, issued, Pending(statusSender))
    }

    /** The Add window's "Add" button. */
    method SubmitAdd(tool: Tool, parse: Parser)
      requires openWindow == Some(AddWindow)
      modifies this`addNetwork, this`openWindow, this`networks, this`issued, statusSender
      ensures State() == AfterAdd(old(State()), statusSender, tool, parse)
    {
      addNetwork := addNetwork.(pathError := addNetwork.path == "", nameError := addNetwork.name == "");
      if !addNetwork.pathError && !addNetwork.nameError {
        var name := addNetwork.name;
        var inv := Plain(AddArgs(name, addNetwork.path));
        var out := tool(inv, |issued|);
        issued := issued + [inv];
        match AddNetworkCmd(out)
        case Err(err) =>
          SendStatus(statusSender, Status(err, true));
        case Ok(_) =>
          SendStatus(statusSender, Status("Success: Added a network with name " + name, false));
          addNetwork := AddForm(addNetwork.initialFocusDone, "", false, "", false);
          openWindow := None;
          GetNetworks(tool, parse);
      }
    }

    /** The Switch window's "Switch" button. */
    method SubmitSwitch(tool: Tool, parse: Parser)
      requires openWindow == Some(SwitchWindow)
      modifies this`switchNetwork, this`openWindow, this`networks, this`issued, statusSender
      ensures State() == AfterSwitch(old(State()), statusSender, tool, parse)
    {
      switchNetwork := switchNetwork.(nameError := switchNetwork.name == "");
      if !switchNetwork.nameError {
        var name := switchNetwork.name;
        var inv := Plain(SwitchArgs(name));
        var out := tool(inv, |issued|);
        issued := issued + [inv];
        match SwitchNetworkCmd(name, out)
        case Err(err) =>
          SendStatus(statusSender, Status(err, true));
        case Ok(_) =>
          SendStatus(statusSender, Status("Success: Switched to network: " + name, false));
          switchNetwork := switchNetwork.(name := "");
          openWindow := None;
          GetNetworks(tool, parse);
      }
    }

    /** The Remove window's "Remove" button. */
    method SubmitRemove(tool: Tool, parse: Parser)
      requires openWindow == Some(RemoveWindow)
      modifies this`removeNetwork, this`openWindow, this`networks, this`issued, statusSender
      ensures State() == AfterRemove(old(State()), statusSender, tool, parse)
    {
      removeNetwork := removeNetwork.(nameError := removeNetwork.name == "");
      if !removeNetwork.nameError {
        var name := removeNetwork.name;
        var inv := Plain(RemoveArgs(name));
        var out := tool(inv, |issued|);
        issued := issued + [inv];
        match RemoveNetworkCmd(name, out)
        case Err(err) =>
          SendStatus(statusSender, Status(err, true));
        case Ok(_) =>
          SendStatus(statusSender, Status("Success: Removed network: " + name, false));
          removeNetwork := removeNetwork.(name := "");
          openWindow := None;
          GetNetworks(tool, parse);
      }
    }

    /**
     * The panel's Add, Switch and Remove buttons: with a window open, any of
     * them closes it; otherwise the chosen window opens, and opening Add asks
     * for focus on its first field again.
     */
    method Toggle(w: OpenWindow)
      modifies this`openWindow, this`addNetwork
      ensures openWindow == if old(openWindow).None? then Some(w) else None
      ensures addNetwork == if old(openWindow).None? && w == AddWindow
                            then old(addNetwork).(initialFocusDone := false)
                            else old(addNetwork)
    {
      if openWindow.None? {
        if w == AddWindow {
          addNetwork := addNetwork.(initialFocusDone := false);
        }
        openWindow := Some(w);
      } else {
        openWindow := None;
      }
    }

    /** The listing's loop: the current network is the last entry marked current. */
    method DeriveCurrentName()
      requires networks.Some?
      modifies this`currentNetworkName
      ensures currentNetworkName == LastCurrentName(networks.value)
    {
      var list := networks.value;
      currentNetworkName := None;
      var i := 0;
      while i < |list|
        invariant 0 <= i <= |list|
        invariant currentNetworkName == LastCurrentName(list[..i])
      {
        assert list[..i + 1][..i] == list[..i];
        if list[i].current {
          currentNetworkName := Some(list[i].name);
        }
        i := i + 1;
      }
      assert list[..|list|] == list;
    }

    /** The Add window's part of a frame. */
    method AddWindowUi(ev: NetworkEvent, tool: Tool, parse: Parser)
      requires openWindow == Some(AddWindow)
      modifies this`openWindow, this`addNetwork, this`networks, this`issued, statusSender
      ensures AddWindowStep(ev, old(State()), State(), statusSender, tool, parse)
    {
      // the name row takes the initial focus once it is drawn
      addNetwork := addNetwork.(initialFocusDone := true);
      match ev {
        case EditAddName(text) => addNetwork := addNetwork.(name := text);
        case EditAddPath(text) => addNetwork := addNetwork.(path := text);
        case WindowClose => openWindow := None;
        case WindowAdd => SubmitAdd(tool, parse);
        case _ =>
      }
    }

    /** The Switch window's part of a frame. */
    method SwitchWindowUi(ev: NetworkEvent, tool: Tool, parse: Parser)
      requires openWindow == Some(SwitchWindow)
      modifies this`openWindow, this`switchNetwork, this`networks, this`issued, statusSender
      ensures SwitchWindowStep(ev, old(State()), State(), statusSender, tool, parse)
    {
      match ev {
        case EditSwitchName(text) => switchNetwork := switchNetwork.(name := text);
        case WindowClose => openWindow := None;
        case WindowSwitch => SubmitSwitch(tool, parse);
        case _ =>
      }
    }

    /** The Remove window's part of a frame. */
    method RemoveWindowUi(ev: NetworkEvent, tool: Tool, parse: Parser)
      requires openWindow == Some(RemoveWindow)
      modifies this`openWindow, this`removeNetwork, this`networks, this`issued, statusSender
      ensures RemoveWindowStep(ev, old(State()), State(), statusSender, tool, parse)
    {
      match ev {
        case EditRemoveName(text) => removeNetwork := removeNetwork.(name := text);
        case WindowClose => openWindow := None;
        case WindowRemove => SubmitRemove(tool, parse);
        case _ =>
      }
    }

    /** The open window's part of a frame. */
    method WindowUi(ev: NetworkEvent, tool: Tool, parse: Parser)
      modifies this`openWindow, this`addNetwork, this`switchNetwork, this`removeNetwork
      modifies this`networks, this`issued, statusSender
      ensures WindowStep(ev, old(State()), State(), statusSender, tool, parse)
    {
      if openWindow.Some? {
        match openWindow.value {
          case AddWindow => AddWindowUi(ev, tool, parse);
          case SwitchWindow => SwitchWindowUi(ev, tool, parse);
          case RemoveWindow => RemoveWindowUi(ev, tool, parse);
        }
      }
    }

    /** The panel's part of a frame: refresh, or one of the window toggles. */
    method PanelUi(ev: NetworkEvent, tool: Tool, parse: Parser)
      modifies this`openWindow, this`addNetwork, this`networks, this`issued, statusSender
      ensures PanelStep(ev, old(State()), State(), statusSender, tool, parse)
    {
      match ev {
        case PanelRefresh => GetNetworks(tool, parse);
        case PanelRemove => Toggle(RemoveWindow);
        case PanelSwitch => Toggle(SwitchWindow);
        case PanelAdd => Toggle(AddWindow);
        case _ =>
      }
    }

    /**
     * One frame of the view (`ui`): fetch the listing if there is none, let
     * the open window handle its input, then the panel's buttons, then derive
     * the current network from the listing, if there is one. Without a
     * listing the current network keeps its previous value.
     */
    method Ui(ev: NetworkEvent, tool: Tool, parse: Parser)
      modifies this, statusSender
      ensures statusSender == old(statusSender)
      ensures networks.Some? ==> currentNetworkName == LastCurrentName(networks.value)
      ensures networks.None? ==> currentNetworkName == old(currentNetworkName)
      ensures old(networks).Some? ==> networks.Some?
      ensures old(networks).None? ==> |issued| > |old(issued)| && issued[|old(issued)|] == Plain(ListArgs())
      ensures old(openWindow).None? && (ev.WindowClose? || ev.WindowAdd? || ev.WindowSwitch? || ev.WindowRemove?) ==>
        openWindow == None && addNetwork == old(addNetwork) && switchNetwork == old(switchNetwork) && removeNetwork == old(removeNetwork)
      ensures old(openWindow).Some? && (ev.PanelAdd? || ev.PanelSwitch? || ev.PanelRemove?) ==> openWindow == None
      ensures old(networks).Some? ==> FrameHandled(ev, old(State()), State(), statusSender, tool, parse)
    {
      if networks.None? {
        GetNetworks(tool, parse);
      }
      ghost var s := State();
      WindowUi(ev, tool, parse);
      ghost var m := State();
      PanelUi(ev, tool, parse);
      FrameSteps(ev, s, m, State(), statusSender, tool, parse);
      if networks.Some? {
        DeriveCurrentName();
      }
    }
  }
}

=== FILE: node.dfy ===
/**
 * The Node view: a two-state machine (Idle, Running) that starts a `safe`
 * node child process for the current network, tails its log into the view,
 * and stops it again.
 */
module NodeRunning {
  import opened Common

  datatype NodeState = Idle | Running

  /** The handle of a spawned child process. */
  datatype Child = Child(pid: nat)

  /** `Command::spawn`: starts a child and returns without waiting for it. */
  type Launcher = Invocation -> Spawn<Child>

  /**
   * The log tail of a started node: whether its tailer task still runs (it is
   * aborted on stop), the lines the tailer sent that the view has not received
   * yet, and the lines the view shows.
   */
  datatype Log = Log(tailing: bool, channel: seq<string>, logs: seq<string>)

  /** The verbose-logging filter set on the node child only. */
  const LOG_FILTER: string := "sn_node,sn_interface=trace"

  const NO_DEFAULT_NETWORK := Status("Error: No default network set", true)
  const NODE_RUNNING := Status("Node is running!", false)
  const KILL_FAILED := Status("Error: Failed to kill node", true)
  const NODE_STOPPED := Status("Node has been stopped!", false)

  /**
   * The launch of `safe node join --network-name <name>`, with `RUST_LOG`
   * as the one environment override of the child.
   */
  function RunNodeInvocation(networkName: string): (inv: Invocation)
    ensures inv.program == SAFE && ParseArgs(inv.args) == Some(NodeJoin(networkName))
    ensures inv.env.Keys == {"RUST_LOG"} && inv.env["RUST_LOG"] == LOG_FILTER
  {
    Invocation(SAFE, ["node", "join", "--network-name", networkName], map["RUST_LOG" := LOG_FILTER])
  }

  /**
   * One `try_recv` on the log channel: the oldest pending line, if any, moves
   * to the end of the shown lines. No line is lost, reordered or duplicated.
   */
  function Receive(l: Log): (r: Log)
    ensures r.tailing == l.tailing
    ensures r.logs + r.channel == l.logs + l.channel
    ensures |l.logs| <= |r.logs| <= |l.logs| + 1
    ensures r.logs[..|l.logs|] == l.logs
    ensures l.channel != [] <==> |r.logs| == |l.logs| + 1
  {
    if l.channel == [] then l else Log(l.tailing, l.channel[1..], l.logs + [l.channel[0]])
  }

  /** The log as the view holds it after one frame: received once if present. */
  function Polled(log: Option<Log>): Option<Log>
  {
    if log.Some? then Some(Receive(log.value)) else None
  }

  /** The log after `k` frames with no new line from the tailer. */
  function ReceiveN(l: Log, k: nat): Log
    decreases k
  {
    if k == 0 then l else ReceiveN(Receive(l), k - 1)
  }

  /**
   * Over `k` frames the view shows the first `k` pending lines (or all of
   * them), appended in the order the tailer sent them.
   */
  lemma {:induction false} ReceiveNShowsPrefix(l: Log, k: nat)
    ensures var n := if k < |l.channel| then k else |l.channel|;
      && ReceiveN(l, k).logs == l.logs + l.channel[..n]
      && ReceiveN(l, k).channel == l.channel[n..]
    decreases k
  {
    if k == 0 {
      assert l.channel[..0] == [];
    } else if l.channel == [] {
      ReceiveNShowsPrefix(Receive(l), k - 1);
    } else {
      var r := Receive(l);
      ReceiveNShowsPrefix(r, k - 1);
      var n := if k < |l.channel| then k else |l.channel|;
      assert r.channel == l.channel[1..];
      assert l.logs + l.channel[..n] == r.logs + r.channel[..n - 1];
    }
  }

  /** The Node view's state (`NodeRunner`); `issued` records every launch. */
  class NodeRunner {
    var currentNetworkName: Option<string>
    var nodeState: NodeState
    var runningNodeHandle: Option<Child>
    var log: Option<Log>
    var statusSender: StatusChannel?
    var issued: seq<Invocation>

    /**
     * A running node has a handle and a live tailer; a tailer is live only
     * while the node runs. Stop keeps the handle and the log, so an idle
     * runner may still hold both.
     */
    ghost predicate Valid()
      reads this
    {
      && (nodeState == Running ==> runningNodeHandle.Some?)
      && (nodeState == Running <==> log.Some? && log.value.tailing)
    }

    /** `NodeRunner::default()`: idle, no network, no handle, no log, no sender. */
    constructor ()
      ensures Valid()
      ensures currentNetworkName == None && nodeState == Idle
      ensures runningNodeHandle == None && log == None
      ensures statusSender == null && issued == []
    {
      currentNetworkName := None;
      nodeState := Idle;
      runningNodeHandle := None;
      log := None;
      statusSender := null;
      issued := [];
    }

    /**
     * The "Start node" button, shown only while idle. Without a current
     * network nothing is launched; otherwise the node is launched and, if the
     * spawn succeeds, its handle and a fresh log are stored and the state
     * becomes Running. A failed spawn leaves handle, log and state as they were.
     */
    method ClickStart(launch: Launcher)
      requires Valid() && nodeState == Idle
      modifies this, statusSender
      ensures Valid()
      ensures statusSender == old(statusSender) && currentNetworkName == old(currentNetworkName)
      ensures old(currentNetworkName).None? ==>
        && nodeState == Idle && issued == old(issued)
        && runningNodeHandle == old(runningNodeHandle) && log == old(log)
        && Pending(statusSender) == old(Pending(statusSender)) + Reaching(statusSender, [NO_DEFAULT_NETWORK])
      ensures old(currentNetworkName).Some? ==>
        var inv := RunNodeInvocation(old(currentNetworkName).value);
        && issued == old(issued) + [inv]
        && (launch(inv).Spawned? ==>
              && nodeState == Running
              && runningNodeHandle == Some(launch(inv).value)
              && log == Some(Log(true, [], []))
              && Pending(statusSender) == old(Pending(statusSender)) + Reaching(statusSender, [NODE_RUNNING]))
        && (launch(inv).SpawnFailed? ==>
              && nodeState == Idle
              && runningNodeHandle == old(runningNodeHandle) && log == old(log)
              && Pending(statusSender) == old(Pending(statusSender)) + Reaching(statusSender, [Status("Error: " + launch(inv).reason, true)]))
    {
      if currentNetworkName.Some? {
        var inv := RunNodeInvocation(currentNetworkName.value);
        issued := issued + [inv];
        match launch(inv)
        case Spawned(commandHandle) =>
          SendStatus(statusSender, NODE_RUNNING);
          runningNodeHandle := Some(commandHandle);
          log := Some(Log(true, [], []));
          nodeState := Running;
        case SpawnFailed(reason) =>
          SendStatus(statusSender, Status("Error: " + reason, true));
      } else {
        SendStatus(statusSender, NO_DEFAULT_NETWORK);
      }
    }

    /**
     * The "Stop node" button, shown only while running: aborts the tailer,
     * kills the child and always ends Idle. A failed kill adds an error before
     * the "stopped" message. The handle and the log stay in place.
     */
    method ClickStop(killOk: bool)
      requires Valid() && nodeState == Running
      modifies this, statusSender
      ensures Valid()
      ensures nodeState == Idle
      ensures runningNodeHandle == old(runningNodeHandle)
      ensures log == Some(old(log).value.(tailing := false))
      ensures Pending(statusSender) == old(Pending(statusSender)) + Reaching(statusSender, (if killOk then [] else [KILL_FAILED]) + [NODE_STOPPED])
      ensures statusSender == old(statusSender) && currentNetworkName == old(currentNetworkName)
      ensures issued == old(issued)
    {
      if log.Some? {
        log := Some(log.value.(tailing := false));
      }
      if runningNodeHandle.Some? {
        if !killOk {
          SendStatus(statusSender, KILL_FAILED);
        }
        SendStatus(statusSender, NODE_STOPPED);
      }
      nodeState := Idle;
    }

    /** The tailer task sends one line read from the log file, unless aborted. */
    method TailerSends(line: string)
      requires Valid()
      modifies this
      ensures Valid()
      ensures log == if old(log).Some? && old(log).value.tailing
                     then Some(old(log).value.(channel := old(log).value.channel + [line]))
                     else old(log)
      ensures nodeState == old(nodeState) && runningNodeHandle == old(runningNodeHandle)
      ensures statusSender == old(statusSender) && currentNetworkName == old(currentNetworkName)
      ensures issued == old(issued)
    {
      if log.Some? && log.value.tailing {
        log := Some(log.value.(channel := log.value.channel + [line]));
      }
    }

    /** The end of every frame: at most one pending log line is received. */
    method PollLog()
      requires Valid()
      modifies this
      ensures Valid()
      ensures log == Polled(old(log))
      ensures nodeState == old(nodeState) && runningNodeHandle == old(runningNodeHandle)
      ensures statusSender == old(statusSender) && currentNetworkName == old(currentNetworkName)
      ensures issued == old(issued)
    {
      if log.Some? {
        log := Some(Receive(log.value));
      }
    }

    /**
     * One frame of the view (`ui`): the single button acts for the current
     * state when clicked, then at most one log line is received.
     */
    method Ui(clicked: bool, launch: Launcher, killOk: bool)
      requires Valid()
      modifies this, statusSender
      ensures Valid()
      ensures statusSender == old(statusSender) && currentNetworkName == old(currentNetworkName)
      ensures !clicked ==>
        && nodeState == old(nodeState) && runningNodeHandle == old(runningNodeHandle)
        && log == Polled(old(log)) && issued == old(issued) && Pending(statusSender) == old(Pending(statusSender))
      ensures clicked && old(nodeState) == Running ==>
        && nodeState == Idle && runningNodeHandle == old(runningNodeHandle)
        && log == Polled(Some(old(log).value.(tailing := false))) && issued == old(issued)
      ensures clicked && old(nodeState) == Idle ==>
        var started := old(currentNetworkName).Some? &&
                       launch(RunNodeInvocation(old(currentNetworkName).value)).Spawned?;
        && (nodeState == Running <==> started)
        && (old(currentNetworkName).None? ==> issued == old(issued))
        && (old(currentNetworkName).Some? ==> issued == old(issued) + [RunNodeInvocation(old(currentNetworkName).value)])
        && (started ==> log == Some(Log(true, [], [])) &&
                        runningNodeHandle == Some(launch(RunNodeInvocation(old(currentNetworkName).value)).value))
        && (!started ==> runningNodeHandle == old(runningNodeHandle) && log == Polled(old(log)))
    {
      if clicked {
        match nodeState
        case Idle => ClickStart(launch);
        case Running => ClickStop(killOk);
      }
      PollLog();
    }
  }
}
